=== FILE: README.md ===
# get_temperature tool handler — a Dafny model

This project models the request handler of a small MCP (Model Context
Protocol) server. The server exposes one tool, `get_temperature`, and answers
each call by querying a local HTTP temperature service. The handler
(`temperatureHandler` in `main.go`) is a straight pipeline:

1. **Validate** the `location` argument. It must be present, a string, and
   non-empty; otherwise the call fails with
   `location must be a non-empty string` before any request is built.
2. **Normalise** the optional `unit` argument to `metric` or `imperial`. The
   value is lower-cased and looked up in a small alias table. Absent, empty,
   non-string and unknown values all give `metric`.
3. **Build** the URL
   `http://localhost:8080/temperature?location=<QueryEscape(location)>&units=<QueryEscape(unit)>&appid=<key>`.
   The API key is appended as is.
4. **Classify** the service's answer. A transport failure, a non-200 status
   and a body-read failure each give their own error message. A 200 with a
   readable body gives the text `Temperature for <location>: <body>`.

Modules, one per concern:

- `Results` (`results.dfy`): `Option`, `Result` and `HasPrefix`.
- `Arguments` (`arguments.dfy`): the dynamically typed argument map and Go's
  `args[key].(string)` lookup.
- `Ascii` (`ascii.dfy`): the RFC 3986 unreserved set, hex digits, and
  lower-casing.
- `Units` (`units.dfy`): the unit table and its normalisation.
- `Utf8` (`utf8.dfy`): the UTF-8 encoding and decoding of Go strings.
- `QueryEscape` (`query_escape.dfy`): `url.QueryEscape` and
  `url.QueryUnescape`, which is its inverse.
- `Query` (`query.dfy`): reading a URL back into its `&`-separated
  parameters.
- `Handler` (`handler.dfy`): the handler itself.
- `HandlerProperties` (`handler_properties.dfy`): what whole calls promise.

Modelling choices:

- **Strings.** A Go string is a byte string. The arguments arrive by JSON
  decoding, so they are valid UTF-8. A Dafny `string` (a sequence of Unicode
  scalar values) therefore stands for the Go string whose bytes are
  `Utf8.Encode(s)`. `QueryEscape.Escape` escapes those bytes, as Go does.
- **Environment.** The value of `WEATHER_API_KEY` is the parameter `apiKey`.
- **HTTP.** The GET and `io.ReadAll` together become the parameter
  `fetch: string -> HttpOutcome`. It gives the outcome the service returns
  for a URL: either `TransportErr(err)`, or
  `Resp(statusCode, status, ReadOk(body) | ReadErr(err))`. `status` is Go's
  `resp.Status` line, for example `500 Internal Server Error`.
- **The request.** `Handler.RequestUrl` is the URL the handler would
  request. It is `None` exactly when validation fails.

Behaviour of the code worth stating plainly:

- The API key is appended raw at main.go:110, unlike the location. The URL
  is read the way Go's `url.Parse` reads it inside `http.Get`: the fragment
  is cut off at the first `#`, and the query is the text after the first
  `?`. `HandlerProperties.ApiKeyAmpersandAddsParams` shows that an `&` ahead
  of any `#` in the key adds query parameters.
  `HandlerProperties.ApiKeyHashTruncates` shows that a `#` in the key cuts
  the rest of the key out of the query and turns it into the URL's fragment.
- `url.QueryEscape` is form-style: a space in the location becomes `+`, not
  `%20`, so `New York` is sent as `New+York`.
- `unit` is also passed through `QueryEscape`. This has no effect, because
  both tokens are unreserved (`QueryEscape.EscapeUnreserved`).

## Model

| member | source | states |
|---|---|---|
| Arguments.GetString | main.go:81 | the lookup succeeds exactly when the key is present and holds a string, and it returns that string |
| Handler.ValidateLocation | main.go:80-85 | success exactly when `location` is present, a string and non-empty; the value is returned unchanged; every failure carries the fixed argument-error message |
| Handler.RequestUrl | main.go:80-111 | a URL is built exactly when location validation succeeds |
| Handler.Respond | main.go:113-134 | the result is Ok exactly for a 200 whose body was read, and its text is then the reply for the location and body; a transport failure, a non-200 status and a read failure give their three distinct prefixes followed by the error text or status line |
| Handler.Handle | main.go:76-135 | a call without a URL fails with the argument error; otherwise the result is the classification of the service's answer to exactly the URL RequestUrl exposes |
| Handler.UrlFor | main.go:108-110 | the URL starts with http://localhost:8080/temperature and '?', and its query reads back as location=Escape(location), units=the unit's token, and then the fields of appid=key up to the key's first '#' |
| Handler.UnitOf | main.go:87-100 | the call's unit is imperial exactly when `unit` is a string whose lower-case form is an imperial alias; an absent or non-string `unit` gives metric |
| HandlerProperties.InvalidLocationRequestsNothing | main.go:81-85 | an absent, non-string or empty location gives the argument error and no URL, whatever the service would do |
| HandlerProperties.NoUrlMeansServiceUnused | main.go:81-85 | when no URL is built, two different services give the same result, so no request is observable |
| HandlerProperties.HandleQueriesRequestUrl | main.go:108-114 | for any arguments holding a non-empty string location, a URL is built and the result is the classification, for that location, of the service's answer to exactly that URL |
| HandlerProperties.RequestUrlOf | main.go:87-110 | for any arguments holding a non-empty string location, the requested URL is built from that location as given and the normalised unit of the call |
| HandlerProperties.HandleOkIff | main.go:113-134 | a call succeeds iff a URL is built and its answer is a 200 with a readable body; the text is then "Temperature for " + the original location + ": " + the body verbatim |
| HandlerProperties.SuccessReply | main.go:128-134 | a call with only a non-empty location, answered 200 with body b, replies exactly "Temperature for <location>: b" |
| HandlerProperties.BadStatusIgnoresBody | main.go:122-125 | a non-200 answer gives "temperature service returned status: " + the status line; the body never affects the result |
| Handler.Reply | main.go:133-134 | the reply text starts with "Temperature for ", the location and ": ", and what follows them is exactly the body |
| HandlerProperties.ErrorMessageNamesKind | main.go:81-131 | a call fails exactly when its inputs call for one of the four failure classes, and that class can be read back from the message alone |
| HandlerProperties.UrlParams | main.go:108-110 | the query of the URL is location=Escape(location), units=token and then the fields of the raw key up to its first '#'; with no '&' ahead of a '#' there are exactly these three, and with neither '&' nor '#' the third is appid=key |
| HandlerProperties.ApiKeyAmpersandAddsParams | main.go:110 | an '&' ahead of any '#' in the unescaped key makes the query have more than three parameters |
| HandlerProperties.ApiKeyHashTruncates | main.go:110-114 | a '#' with no '&' ahead of it in the unescaped key starts the URL's fragment: there are exactly three parameters, the appid value sent is the strict prefix of the key before that '#', and the rest of the key is the fragment |
| HandlerProperties.UrlFragment | main.go:110-114 | the fragment url.Parse finds in the URL is exactly the key's: none when the key has no '#', and otherwise the key's text after its first '#' |
| HandlerProperties.UrlText | main.go:108-110 | the whole URL text is the endpoint, ?location= and the escaped location, &units= and the unit token unchanged by its escaping, and &appid= followed by the key appended raw, with nothing after it |
| HandlerProperties.LocationRecoverable | main.go:110 | the location parameter starts with "location=", and its value unescapes back to the location, so a location cannot inject parameters |
| HandlerProperties.UnitsParam | main.go:110 | the second query parameter is "units=" followed by the unit's token |
| HandlerProperties.AbsentUnitIsMetric | main.go:88-90 | with no string `unit` argument the call's unit is metric, whose token "metric" is what UnitsParam puts in the query |
| HandlerProperties.SpaceBecomesPlus | main.go:110 | a space between unreserved words is written as '+' (New York becomes New+York) |
| Units.Normalize | main.go:87-100 | the result is imperial iff a string unit was given whose lower-cased form is fahrenheit, f or imperial; metric aliases give metric |
| Units.FallbackIsMetric | main.go:88-100 | absent, non-string, empty or unrecognised units give metric without an error |
| Units.NormalizeIgnoresCase | main.go:92-96 | two spellings that differ only in letter case normalise to the same unit |
| Units.NormalizeIdempotent | main.go:92-98 | normalising a unit's own token gives that unit back |
| Units.NormalizeExamples | main.go:88-100 | F and Imperial give imperial; CELSIUS, kelvin, the empty string and an absent unit give metric |
| Ascii.LowerChar | main.go:92 | lower-casing yields an ASCII character exactly for ASCII input and the two non-ASCII characters Go lowers into ASCII; no upper-case ASCII letter survives |
| Ascii.Lower | main.go:92 | lower-casing leaves no upper-case ASCII letter and agrees with its input up to case |
| Ascii.LowerIdempotent | main.go:92 | lower-casing twice is the same as lower-casing once |
| Ascii.SameIgnoringCaseIff | main.go:92 | two strings agree up to case iff their lower-case forms are equal |
| Ascii.HexDigit | main.go:110 | the percent-encoding digit is upper-case hex and denotes the given value |
| QueryEscape.EscapeByte | main.go:110 | an unreserved byte stays as is, a space becomes '+', and any other byte becomes '%' and two hex digits |
| QueryEscape.EscapeBytes | main.go:110 | escaped bytes are well formed (only unreserved characters, '+', and '%' with two upper-case hex digits) and never shorter than the input |
| QueryEscape.Escape | main.go:110 | QueryEscape output is well formed and never contains '&', '=', '?', '#' or a space |
| QueryEscape.EscapeAppend | main.go:110 | escaping a concatenation concatenates the escapes |
| QueryEscape.EscapeUnreserved | main.go:110 | escaping leaves a string of unreserved characters, such as both unit tokens, unchanged |
| QueryEscape.UnescapeEscapeBytes | main.go:110 | percent-decoding the escape of any byte string gives the bytes back |
| QueryEscape.UnescapeEscape | main.go:110 | QueryUnescape(QueryEscape(s)) == s for every string |
| QueryEscape.EscapeInjective | main.go:110 | distinct locations are escaped to distinct query values |
| Utf8.EncodeChar | main.go:110 | each character takes one to four bytes; one byte exactly for ASCII, equal to its code, and the later bytes are continuation bytes |
| Utf8.Encode | main.go:110 | a string takes between one and four bytes per character, and exactly one per character when it is ASCII |
| Utf8.DecodeEncode | main.go:110 | decoding the UTF-8 bytes of a string gives the string back |
| Utf8.EncodeInjective | main.go:110 | distinct strings have distinct UTF-8 bytes |

## Left out

- `init` (main.go:27-40). It creates the log directory and log file, and exits the process when that fails. This is filesystem I/O.
- `main` (main.go:42-72). It builds the server, registers the tool schema and serves over stdio. All of this is calls into the MCP library, which is not part of this model.
- Logging (main.go:78, 83, 105, 111, 116, 119). It has no effect on the result. Note that the logged URL contains the API key in plain text.
- `os.Getenv("WEATHER_API_KEY")` (main.go:103-106). The key is the parameter `apiKey`. An empty key only triggers a log line.
- URL validation by `url.Parse`. A key holding control characters, or an invalid `%` escape after a `#` (the key `k#%zz`, say, whose fragment does not unescape), makes `http.Get` fail before any request. `fetch` can answer such a URL with `TransportErr`, but the model does not predict that failure.
- `http.Get`, `io.ReadAll` and `resp.Body.Close` (main.go:114-131). They are the parameter `fetch`, a single deterministic answer per URL. Timeouts, redirects, retries and connection reuse belong to Go's HTTP client and are not modelled.
- The text of Go's errors. A transport or read error is the string it formats to; `fmt.Errorf`'s `%w` wrapping is modelled as concatenation of that text.
- Context cancellation and concurrency. The handler ignores `ctx` and shares no state.
- Ascii.LowerChar: it lower-cases only A-Z, U+0130 and U+212A. Go's `strings.ToLower` also lowers many other non-ASCII characters, but always to non-ASCII ones. Every alias in the table is ASCII, so the unit chosen is the same either way.
- Go strings that are not valid UTF-8. The model's strings are sequences of Unicode scalar values. The tool arguments arrive through JSON decoding and are always valid UTF-8. Three other strings are raw bytes in Go and may not be: the response body (`io.ReadAll`, then `string(body)`), the `WEATHER_API_KEY` value and the status line `resp.Status`. `ReadOk(body)`, `apiKey` and `status` therefore cover only values that are valid UTF-8. For those, "the body verbatim" in `HandlerProperties.HandleOkIff` and `Handler.Respond` means the same bytes.
- Parsing of the service's body. The code forwards it verbatim.

=== FILE: arguments.dfy ===
/** The dynamically typed argument map a tool call carries. */
module Arguments {
  import opened Results

  /** A decoded argument value: a string, or anything else (number, bool, object, ...). */
  datatype ArgValue = Str(s: string) | NonString

  /** The arguments of one call, by name. */
  type Args = map<string, ArgValue>

  /**
   * Go's `v, ok := args[key].(string)`: Some(v) exactly when the key is present
   * and holds a string.
   */
  function GetString(args: Args, key: string): (r: Option<string>)
    ensures r.Some? <==> key in args && args[key].Str?
    ensures r.Some? ==> args[key] == Str(r.value)
  {
    if key in args then
      match args[key]
      case Str(s) => Some(s)
      case NonString => None
    else None
  }
}

=== FILE: ascii.dfy ===
/** Character classes and case mapping used by the handler. */
module Ascii {

  /** An ASCII letter. */
  predicate IsAlpha(c: char)
  {
    'a' <= c <= 'z' || 'A' <= c <= 'Z'
  }

  /** An ASCII decimal digit. */
  predicate IsDigit(c: char)
  {
    '0' <= c <= '9'
  }

  /** The unreserved characters of section 2.3 of RFC 3986: ALPHA DIGIT - . _ ~ */
  predicate IsUnreserved(c: char)
  {
    IsAlpha(c) || IsDigit(c) || c == '-' || c == '.' || c == '_' || c == '~'
  }

  /** Text made only of unreserved characters. */
  predicate AllUnreserved(s: string)
  {
    forall i :: 0 <= i < |s| ==> IsUnreserved(s[i])
  }

  /** An upper-case hexadecimal digit, the form percent-encoding writes. */
  predicate IsUpperHex(c: char)
  {
    IsDigit(c) || 'A' <= c <= 'F'
  }

  /** A hexadecimal digit of either case, the form percent-decoding accepts. */
  predicate IsHex(c: char)
  {
    IsUpperHex(c) || 'a' <= c <= 'f'
  }

  /** The digit table percent-encoding writes from. */
  const HexDigits: string := "0123456789ABCDEF"

  /** The upper-case hexadecimal digit for a value below sixteen. */
  function HexDigit(d: int): (c: char)
    requires 0 <= d < 16
    ensures IsUpperHex(c)
    ensures HexValue(c) == d
  {
    HexDigits[d]
  }

  /** The value of a hexadecimal digit of either case. */
  function HexValue(c: char): (v: int)
    requires IsHex(c)
    ensures 0 <= v < 16
  {
    if IsDigit(c) then c as int - '0' as int
    else if 'A' <= c <= 'F' then c as int - 'A' as int + 10
    else c as int - 'a' as int + 10
  }

  /** The two non-ASCII characters whose Go lower-case form is ASCII. */
  const DottedCapitalI: char := 0x130 as char
  const KelvinSign: char := 0x212A as char

  /**
   * Lower-cases one character the way Go's unicode.ToLower does for every
   * character whose lower-case form is ASCII: the letters A-Z, U+0130 (capital
   * I with dot above, lowered to 'i') and U+212A (Kelvin sign, lowered to 'k').
   * Every other character is kept; Go lowers some of them, but always to a
   * non-ASCII character.
   */
  function LowerChar(c: char): (r: char)
    ensures (r as int < 0x80) <==> (c as int < 0x80 || c == DottedCapitalI || c == KelvinSign)
    ensures !('A' <= r <= 'Z')
    ensures IsUnreserved(c) ==> IsUnreserved(r)
  {
    if 'A' <= c <= 'Z' then (c as int + 32) as char
    else if c == DottedCapitalI then 'i'
    else if c == KelvinSign then 'k'
    else c
  }

  /**
   * strings.ToLower: no upper-case ASCII letter is left, and the result
   * agrees with the input up to case.
   */
  function Lower(s: string): (r: string)
    ensures forall i :: 0 <= i < |r| ==> !('A' <= r[i] <= 'Z')
    ensures SameIgnoringCase(s, r)
  {
    seq(|s|, i requires 0 <= i < |s| => LowerChar(s[i]))
  }

  /** Two strings that differ only in letter case (as the handler folds it). */
  predicate SameIgnoringCase(s: string, t: string)
  {
    |s| == |t| && forall i :: 0 <= i < |s| ==> LowerChar(s[i]) == LowerChar(t[i])
  }

  /** Lower-casing is idempotent. */
  lemma LowerIdempotent(s: string)
    ensures Lower(Lower(s)) == Lower(s)
  {
  }

  /** Strings that agree up to case have the same lower-case form, and conversely. */
  lemma SameIgnoringCaseIff(s: string, t: string)
    ensures SameIgnoringCase(s, t) <==> Lower(s) == Lower(t)
  {
  }
}

=== FILE: handler.dfy ===
/**
 * The get_temperature tool handler as a pure function: validate `location`,
 * normalise `unit`, build the service URL, and classify what the temperature
 * service answered. The HTTP round trip (GET plus reading the whole body) is
 * the parameter `fetch`, the outcome the service gives for a URL; the API key
 * read from WEATHER_API_KEY is the parameter `apiKey`.
 */
module Handler {
  import opened Results
  import opened Ascii
  import opened Arguments
  import opened Units
  import opened QueryEscape
  import opened Query

  /** Reading the response body: all of it, or the reader's error text. */
  datatype ReadOutcome = ReadOk(body: string) | ReadErr(err: string)

  /**
   * The outcome of the GET: a transport failure (no response), or a response
   * with its numeric code, its status line (such as "500 Internal Server
   * Error") and the result of reading its body.
   */
  datatype HttpOutcome =
    | TransportErr(err: string)
    | Resp(statusCode: int, status: string, body: ReadOutcome)

  /** The temperature service and the status code that means success. */
  const Endpoint: string := "http://localhost:8080/temperature"
  const StatusOK: int := 200

  /** The handler's error messages and the pieces of its reply text. */
  const LocationError: string := "location must be a non-empty string"
  const QueryFailedPrefix: string := "failed to query temperature service: "
  const BadStatusPrefix: string := "temperature service returned status: "
  const ReadFailedPrefix: string := "failed to read response: "
  const ReplyLead: string := "Temperature for "
  const ReplySep: string := ": "

  /** `location` must be present, a string, and not empty; it is used as given. */
  function ValidateLocation(args: Args): (r: Result<string>)
    ensures r.Ok? <==> "location" in args && args["location"].Str? && args["location"].s != ""
    ensures r.Ok? ==> r.value == args["location"].s
    ensures r.Err? ==> r.msg == LocationError
  {
    match GetString(args, "location")
    case None => Err(LocationError)
    case Some(loc) => if loc == "" then Err(LocationError) else Ok(loc)
  }

  /**
   * The unit the call asks for: imperial exactly when `unit` is a string
   * whose lower-case form is an imperial alias, metric otherwise.
   */
  function UnitOf(args: Args): (u: Unit)
    ensures u == Imperial <==> "unit" in args && args["unit"].Str? && Lower(args["unit"].s) in ImperialAliases
    ensures "unit" !in args || args["unit"].NonString? ==> u == Metric
  {
    Normalize(GetString(args, "unit"))
  }

  /** The URL text with the location parameter first, then units, then appid. */
  lemma QueryShape(base: string, e: string, t: string, k: string)
    ensures base + "?location=" + e + "&units=" + t + "&appid=" + k ==
              base + ['?'] + (("location=" + e) + ['&'] + (("units=" + t) + ['&'] + ("appid=" + k)))
  {
  }

  /** Every URL of the handler's shape starts with the endpoint and '?'. */
  lemma EndpointLeads(e: string, t: string, k: string)
    ensures HasPrefix(Endpoint + "?location=" + e + "&units=" + t + "&appid=" + k, Endpoint + "?")
  {
    var rest := "location=" + e + "&units=" + t + "&appid=" + k;
    assert "?location=" == "?" + "location=";
    assert Endpoint + "?location=" + e + "&units=" + t + "&appid=" + k == (Endpoint + "?") + rest;
  }

  /** The parameters of a URL of the handler's shape, for a location value and unit token free of '&' and '#'. */
  lemma ParamsOfShape(e: string, t: string, k: string)
    requires '&' !in e && '#' !in e && '&' !in t && '#' !in t
    ensures Params(Endpoint + "?location=" + e + "&units=" + t + "&appid=" + k) ==
              ["location=" + e, "units=" + t] + Fields("appid=" + BeforeFragment(k), '&')
  {
    QueryShape(Endpoint, e, t, k);
    assert '?' !in Endpoint && '#' !in Endpoint;
    ThreeParams(Endpoint, "location=" + e, "units=" + t, "appid=" + k);
    BeforeFragmentAppend("appid=", k);
  }

  /** The fragment of a URL of the handler's shape is the key's, for a location value and unit token free of '#'. */
  lemma FragmentOfShape(e: string, t: string, k: string)
    requires '#' !in e && '#' !in t
    ensures Fragment(Endpoint + "?location=" + e + "&units=" + t + "&appid=" + k) == Fragment(k)
  {
    var lead := Endpoint + "?location=" + e + "&units=" + t + "&appid=";
    assert '#' !in Endpoint && '#' !in "?location=" && '#' !in "&units=" && '#' !in "&appid=";
    assert '#' !in lead;
    FragmentAppend(lead, k);
  }

  /**
   * The service URL for a location, unit and key: the endpoint and '?', then a
   * query that reads back as the escaped location, the unit token, and then
   * whatever fields the key, which is not escaped, splits into up to its
   * first '#'.
   */
  function UrlFor(location: string, unit: Unit, apiKey: string): (r: string)
    ensures HasPrefix(r, Endpoint + "?")
    ensures Params(r) == ["location=" + Escape(location), "units=" + unit.Token()] + Fields("appid=" + BeforeFragment(apiKey), '&')
  {
    var e := Escape(location);
    var t := unit.Token();
    EscapeUnreserved(t);
    ParamsOfShape(e, t, apiKey);
    EndpointLeads(e, t, apiKey);
    Endpoint + "?location=" + e + "&units=" + Escape(t) + "&appid=" + apiKey
  }

  /** The URL the handler requests, or None when it returns before any request. */
  function RequestUrl(args: Args, apiKey: string): (r: Option<string>)
    ensures r.Some? <==> ValidateLocation(args).Ok?
  {
    match ValidateLocation(args)
    case Err(_) => None
    case Ok(loc) => Some(UrlFor(loc, UnitOf(args), apiKey))
  }

  /**
   * The reply text for a successful call: it starts with the lead, the
   * location and the separator, and what follows them is exactly the body.
   */
  function Reply(location: string, body: string): (r: string)
    ensures HasPrefix(r, ReplyLead + location + ReplySep)
    ensures r[|ReplyLead + location + ReplySep|..] == body
  {
    ReplyLead + location + ReplySep + body
  }

  /** Turns the service's outcome into the tool result for `location`. */
  function Respond(location: string, outcome: HttpOutcome): (r: Result<string>)
    ensures r.Ok? <==> outcome.Resp? && outcome.statusCode == StatusOK && outcome.body.ReadOk?
    ensures r.Ok? ==> r.value == Reply(location, outcome.body.body)
    ensures outcome.TransportErr? ==> r.Err? && HasPrefix(r.msg, QueryFailedPrefix)
    ensures outcome.TransportErr? ==> r.msg[|QueryFailedPrefix|..] == outcome.err
    ensures outcome.Resp? && outcome.statusCode != StatusOK ==> r.Err? && HasPrefix(r.msg, BadStatusPrefix)
    ensures outcome.Resp? && outcome.statusCode != StatusOK ==> r.msg[|BadStatusPrefix|..] == outcome.status
    ensures outcome.Resp? && outcome.statusCode == StatusOK && outcome.body.ReadErr? ==> r.Err? && HasPrefix(r.msg, ReadFailedPrefix)
    ensures outcome.Resp? && outcome.statusCode == StatusOK && outcome.body.ReadErr? ==> r.msg[|ReadFailedPrefix|..] == outcome.body.err
  {
    match outcome
    case TransportErr(e) => Err(QueryFailedPrefix + e)
    case Resp(code, status, read) =>
      if code != StatusOK then Err(BadStatusPrefix + status)
      else
        match read
        case ReadErr(e) => Err(ReadFailedPrefix + e)
        case ReadOk(body) => Ok(Reply(location, body))
  }

  /**
   * temperatureHandler: the tool result of one call. Without a URL the call
   * fails with the argument error; otherwise the result is what the service
   * answers for exactly the URL RequestUrl exposes.
   */
  function Handle(args: Args, apiKey: string, fetch: string -> HttpOutcome): (r: Result<string>)
    ensures RequestUrl(args, apiKey).None? ==> r == Err(LocationError)
    ensures RequestUrl(args, apiKey).Some? ==>
              r == Respond(args["location"].s, fetch(RequestUrl(args, apiKey).value))
  {
    match ValidateLocation(args)
    case Err(msg) => Err(msg)
    case Ok(loc) => Respond(loc, fetch(UrlFor(loc, UnitOf(args), apiKey)))
  }
}

=== FILE: handler_properties.dfy ===
/** What the handler promises its caller, stated over whole calls. */
module HandlerProperties {
  import opened Results
  import opened Ascii
  import opened Arguments
  import opened Units
  import opened QueryEscape
  import opened Query
  import opened Handler

  /** A call without a usable `location` fails with the argument error and requests nothing. */
  lemma InvalidLocationRequestsNothing(args: Args, apiKey: string, fetch: string -> HttpOutcome)
    requires !("location" in args && args["location"].Str? && args["location"].s != "")
    ensures RequestUrl(args, apiKey) == None
    ensures Handle(args, apiKey, fetch) == Err(LocationError)
  {
  }

  /** With a usable `location`, the handler's result is what the service says about RequestUrl. */
  lemma HandleQueriesRequestUrl(others: Args, location: string, apiKey: string, fetch: string -> HttpOutcome)
    requires location != ""
    ensures RequestUrl(others["location" := Str(location)], apiKey).Some?
    ensures Handle(others["location" := Str(location)], apiKey, fetch)
            == Respond(location, fetch(RequestUrl(others["location" := Str(location)], apiKey).value))
  {
  }

  /** When no URL is built, the service's behaviour cannot influence the result. */
  lemma NoUrlMeansServiceUnused(args: Args, apiKey: string, f: string -> HttpOutcome, g: string -> HttpOutcome)
    requires RequestUrl(args, apiKey).None?
    ensures Handle(args, apiKey, f) == Handle(args, apiKey, g)
  {
  }

  /**
   * A call succeeds exactly when a URL is built, the service answers it with
   * status 200 and the body is read in full; the text then quotes the
   * location as given (not normalised) and the body verbatim.
   */
  lemma HandleOkIff(args: Args, apiKey: string, fetch: string -> HttpOutcome)
    ensures Handle(args, apiKey, fetch).Ok? <==>
              && RequestUrl(args, apiKey).Some?
              && fetch(RequestUrl(args, apiKey).value).Resp?
              && fetch(RequestUrl(args, apiKey).value).statusCode == StatusOK
              && fetch(RequestUrl(args, apiKey).value).body.ReadOk?
    ensures Handle(args, apiKey, fetch).Ok? ==>
              Handle(args, apiKey, fetch).value ==
                "Temperature for " + args["location"].s + ": " + fetch(RequestUrl(args, apiKey).value).body.body
  {
  }

  /** A non-200 answer yields the status line alone: the body is never part of the result. */
  lemma BadStatusIgnoresBody(location: string, code: int, status: string, b1: ReadOutcome, b2: ReadOutcome)
    requires code != StatusOK
    ensures Respond(location, Resp(code, status, b1)) == Respond(location, Resp(code, status, b2))
    ensures Respond(location, Resp(code, status, b1)) == Err("temperature service returned status: " + status)
  {
  }

  /** The failure classes of the tool's error taxonomy. */
  datatype ErrorKind = InvalidArgument | UpstreamUnreachable | UpstreamError | UpstreamReadError

  /** The failure class a caller reads off an error message. */
  function KindOf(msg: string): Option<ErrorKind>
  {
    if msg == LocationError then Some(InvalidArgument)
    else if HasPrefix(msg, QueryFailedPrefix) then Some(UpstreamUnreachable)
    else if HasPrefix(msg, BadStatusPrefix) then Some(UpstreamError)
    else if HasPrefix(msg, ReadFailedPrefix) then Some(UpstreamReadError)
    else None
  }

  /** The failure class a call deserves, judged from its inputs; None for success. */
  function ExpectedFailure(args: Args, apiKey: string, fetch: string -> HttpOutcome): Option<ErrorKind>
  {
    match RequestUrl(args, apiKey)
    case None => Some(InvalidArgument)
    case Some(u) =>
      match fetch(u)
      case TransportErr(_) => Some(UpstreamUnreachable)
      case Resp(code, _, read) =>
        if code != StatusOK then Some(UpstreamError)
        else if read.ReadErr? then Some(UpstreamReadError)
        else None
  }

  /** No error message can be mistaken for another kind: the prefixes differ within their first eleven characters. */
  lemma PrefixesDistinct(e: string)
    ensures !HasPrefix(QueryFailedPrefix + e, BadStatusPrefix) && QueryFailedPrefix + e != LocationError
    ensures !HasPrefix(BadStatusPrefix + e, QueryFailedPrefix) && BadStatusPrefix + e != LocationError
    ensures !HasPrefix(ReadFailedPrefix + e, QueryFailedPrefix) && !HasPrefix(ReadFailedPrefix + e, BadStatusPrefix)
    ensures ReadFailedPrefix + e != LocationError
  {
    assert (QueryFailedPrefix + e)[0] == 'f' && (QueryFailedPrefix + e)[0] != LocationError[0];
    assert (BadStatusPrefix + e)[0] == 't' && (BadStatusPrefix + e)[0] != LocationError[0];
    assert (ReadFailedPrefix + e)[0] == 'f' && (ReadFailedPrefix + e)[0] != LocationError[0];
    assert (ReadFailedPrefix + e)[10] == 'r' && QueryFailedPrefix[10] == 'q';
  }

  /**
   * Every failure's message names its class: the error taxonomy can be
   * recovered from the text alone, and a call fails exactly when its inputs
   * call for a failure.
   */
  lemma ErrorMessageNamesKind(args: Args, apiKey: string, fetch: string -> HttpOutcome)
    ensures Handle(args, apiKey, fetch).Err? <==> ExpectedFailure(args, apiKey, fetch).Some?
    ensures Handle(args, apiKey, fetch).Err? ==> KindOf(Handle(args, apiKey, fetch).msg) == ExpectedFailure(args, apiKey, fetch)
  {
    var r := Handle(args, apiKey, fetch);
    if RequestUrl(args, apiKey).Some? {
      var o := fetch(RequestUrl(args, apiKey).value);
      match o
      case TransportErr(e) =>
        PrefixesDistinct(e);
        assert r.msg == QueryFailedPrefix + e;
      case Resp(code, status, read) =>
        if code != StatusOK {
          PrefixesDistinct(status);
          assert r.msg == BadStatusPrefix + status;
          assert HasPrefix(r.msg, BadStatusPrefix);
        } else if read.ReadErr? {
          PrefixesDistinct(read.err);
          assert r.msg == ReadFailedPrefix + read.err;
          assert HasPrefix(r.msg, ReadFailedPrefix);
        }
    }
  }

  /**
   * The query of a request URL is the escaped location, the unit token, and
   * the fields of the key up to its first '#'. That is exactly three
   * parameters when no '&' comes ahead of a '#' in the key, and the key as
   * given when it holds neither. The location's escaping rules out any '&'
   * or '#' of its own.
   */
  lemma UrlParams(location: string, unit: Unit, apiKey: string)
    ensures Params(UrlFor(location, unit, apiKey)) ==
              ["location=" + Escape(location), "units=" + unit.Token()] + Fields("appid=" + BeforeFragment(apiKey), '&')
    ensures '&' !in BeforeFragment(apiKey) ==>
              Params(UrlFor(location, unit, apiKey)) ==
                ["location=" + Escape(location), "units=" + unit.Token(), "appid=" + BeforeFragment(apiKey)]
    ensures '&' !in apiKey && '#' !in apiKey ==>
              Params(UrlFor(location, unit, apiKey)) ==
                ["location=" + Escape(location), "units=" + unit.Token(), "appid=" + apiKey]
  {
    ParamsWithKey(Params(UrlFor(location, unit, apiKey)), "location=" + Escape(location), "units=" + unit.Token(), apiKey);
  }

  /** Two leading parameters followed by the fields of appid and a key cut at its first '#'. */
  lemma ParamsWithKey(ps: seq<string>, l: string, t: string, key: string)
    requires ps == [l, t] + Fields("appid=" + BeforeFragment(key), '&')
    ensures '&' !in BeforeFragment(key) ==> ps == [l, t, "appid=" + BeforeFragment(key)]
    ensures '&' !in key && '#' !in key ==> ps == [l, t, "appid=" + key]
  {
    var k := BeforeFragment(key);
    if '&' !in k {
      FieldsNoSep("appid=" + k, '&');
    }
  }

  /** An '&' ahead of any '#' in the raw key adds query parameters of the key's choosing. */
  lemma ApiKeyAmpersandAddsParams(location: string, unit: Unit, apiKey: string)
    requires '&' in BeforeFragment(apiKey)
    ensures |Params(UrlFor(location, unit, apiKey))| > 3
  {
    UrlParams(location, unit, apiKey);
    var k := BeforeFragment(apiKey);
    var p3 := "appid=" + k;
    assert '&' in p3 by {
      var i :| 0 <= i < |k| && k[i] == '&';
      assert p3[6 + i] == '&';
    }
    FieldsSplitOnSep(p3, '&');
  }

  /**
   * A '#' in the raw key, with no '&' ahead of it, starts the URL's fragment:
   * what follows it is never part of the query but becomes the fragment, so
   * the appid value sent is a strict prefix of the key.
   */
  lemma ApiKeyHashTruncates(location: string, unit: Unit, apiKey: string)
    requires '#' in apiKey && '&' !in BeforeFragment(apiKey)
    ensures Params(UrlFor(location, unit, apiKey)) ==
              ["location=" + Escape(location), "units=" + unit.Token(), "appid=" + BeforeFragment(apiKey)]
    ensures |BeforeFragment(apiKey)| < |apiKey| && apiKey[|BeforeFragment(apiKey)|] == '#'
    ensures Fragment(UrlFor(location, unit, apiKey)) == Some(apiKey[|BeforeFragment(apiKey)| + 1..])
  {
    UrlParams(location, unit, apiKey);
    UrlFragment(location, unit, apiKey);
  }

  /**
   * The request URL's fragment is exactly the key's: none unless the key
   * holds a '#', and otherwise the key's text after its first '#'.
   */
  lemma UrlFragment(location: string, unit: Unit, apiKey: string)
    ensures Fragment(UrlFor(location, unit, apiKey)) == Fragment(apiKey)
    ensures '#' !in apiKey ==> Fragment(UrlFor(location, unit, apiKey)) == None
  {
    UrlText(location, unit, apiKey);
    FragmentOfShape(Escape(location), unit.Token(), apiKey);
  }

  /**
   * The request URL as text: the endpoint, the escaped location, the unit
   * token unchanged by its escaping, and the key appended raw, with nothing
   * after it.
   */
  lemma UrlText(location: string, unit: Unit, apiKey: string)
    ensures UrlFor(location, unit, apiKey) ==
              Endpoint + "?location=" + Escape(location) + "&units=" + unit.Token() + "&appid=" + apiKey
  {
    EscapeUnreserved(unit.Token());
  }

  /** The location parameter's value decodes back to the location as given. */
  lemma LocationRecoverable(location: string, unit: Unit, apiKey: string)
    ensures |Params(UrlFor(location, unit, apiKey))| >= 3
    ensures HasPrefix(Params(UrlFor(location, unit, apiKey))[0], "location=")
    ensures Unescape(Params(UrlFor(location, unit, apiKey))[0][9..]) == Some(location)
  {
    UrlParams(location, unit, apiKey);
    var p1 := "location=" + Escape(location);
    assert p1[9..] == Escape(location);
    UnescapeEscape(location);
  }

  /** The URL requested is built from the location as given and the normalised unit. */
  lemma RequestUrlOf(others: Args, location: string, apiKey: string)
    requires location != ""
    ensures RequestUrl(others["location" := Str(location)], apiKey)
            == Some(UrlFor(location, UnitOf(others["location" := Str(location)]), apiKey))
  {
  }

  /** The `units` parameter carries the unit's token. */
  lemma UnitsParam(location: string, unit: Unit, apiKey: string)
    ensures |Params(UrlFor(location, unit, apiKey))| >= 3
    ensures Params(UrlFor(location, unit, apiKey))[1] == "units=" + unit.Token()
  {
    UrlParams(location, unit, apiKey);
  }

  /**
   * Without a string `unit` argument the call's unit is metric, so by
   * UnitsParam the request carries "units=metric".
   */
  lemma AbsentUnitIsMetric(args: Args)
    requires "unit" !in args || args["unit"] == NonString
    ensures UnitOf(args) == Metric && UnitOf(args).Token() == "metric"
  {
  }

  /**
   * A call naming only a location, answered with 200 and a readable body,
   * replies with exactly "Temperature for <location>: <body>".
   */
  lemma SuccessReply(location: string, apiKey: string, status: string, body: string)
    requires location != ""
    ensures Handle(map["location" := Str(location)], apiKey, (u: string) => Resp(200, status, ReadOk(body)))
            == Ok("Temperature for " + location + ": " + body)
  {
  }

  /** A space between two unreserved words is written as '+', as in "New York" to "New+York". */
  lemma SpaceBecomesPlus(a: string, b: string)
    requires AllUnreserved(a) && AllUnreserved(b)
    ensures Escape(a + " " + b) == a + "+" + b
  {
    EscapeAppend(a + " ", b);
    EscapeAppend(a, " ");
    EscapeUnreserved(a);
    EscapeUnreserved(b);
    assert Utf8.Encode(" ") == [32];
  }
}

=== FILE: query.dfy ===
/**
 * Reading a URL's query back into its '&'-separated parameters, the way Go's
 * url.Parse splits a URL: the fragment is cut off at the first '#' first, and
 * the query is what follows the first '?' in the rest.
 */
module Query {
  import opened Results

  /** The pieces of `s` between occurrences of `sep` (always at least one). */
  function Fields(s: string, sep: char): (r: seq<string>)
    ensures |r| >= 1
    decreases |s|
  {
    if |s| == 0 then [""]
    else if s[0] == sep then [""] + Fields(s[1..], sep)
    else
      var rest := Fields(s[1..], sep);
      [[s[0]] + rest[0]] + rest[1..]
  }

  /**
   * The text before the first '#': the part of a URL that is sent, the rest
   * being its fragment.
   */
  function BeforeFragment(s: string): (r: string)
    ensures HasPrefix(s, r)
    ensures '#' !in r
    ensures '#' in s ==> |r| < |s| && s[|r|] == '#'
    ensures '#' !in s ==> r == s
    decreases |s|
  {
    if |s| == 0 || s[0] == '#' then ""
    else [s[0]] + BeforeFragment(s[1..])
  }

  /**
   * The fragment of a URL: the text after the first '#', or None when there
   * is no '#'. The URL is its text before the fragment, '#', and the fragment.
   */
  function Fragment(s: string): (r: Option<string>)
    ensures r.None? <==> '#' !in s
    ensures r.Some? ==> s == BeforeFragment(s) + ['#'] + r.value
  {
    var b := BeforeFragment(s);
    if '#' in s then
      assert s == s[..|b|] + [s[|b|]] + s[|b| + 1..];
      Some(s[|b| + 1..])
    else None
  }

  /**
   * The query of a URL: the text after the first '?' and before the first
   * '#'; None when there is no '?' ahead of the fragment.
   */
  function QueryPart(u: string): Option<string>
    decreases |u|
  {
    if |u| == 0 || u[0] == '#' then None
    else if u[0] == '?' then Some(BeforeFragment(u[1..]))
    else QueryPart(u[1..])
  }

  /** The query parameters of a URL as written, in order, still escaped. */
  function Params(u: string): seq<string>
  {
    match QueryPart(u)
    case None => []
    case Some(q) => Fields(q, '&')
  }

  /** A piece without separators is a single field. */
  lemma {:induction false} FieldsNoSep(a: string, sep: char)
    requires sep !in a
    ensures Fields(a, sep) == [a]
  {
    if |a| > 0 {
      assert sep !in a[1..];
      FieldsNoSep(a[1..], sep);
      assert [a[0]] + a[1..] == a;
    }
  }

  /** A separator-free piece followed by a separator is exactly the first field. */
  lemma {:induction false} FieldsCons(a: string, sep: char, b: string)
    requires sep !in a
    ensures Fields(a + [sep] + b, sep) == [a] + Fields(b, sep)
  {
    var s := a + [sep] + b;
    if |a| == 0 {
      assert s[0] == sep && s[1..] == b;
    } else {
      assert s[0] == a[0] && s[1..] == a[1..] + [sep] + b;
      assert sep !in a[1..];
      FieldsCons(a[1..], sep, b);
      assert [a[0]] + a[1..] == a;
    }
  }

  /** A separator inside the text splits it into at least two fields. */
  lemma {:induction false} FieldsSplitOnSep(s: string, sep: char)
    requires sep in s
    ensures |Fields(s, sep)| >= 2
  {
    if s[0] != sep {
      FieldsSplitOnSep(s[1..], sep);
    }
  }

  /** Text free of '#' passes through the fragment cut unchanged. */
  lemma {:induction false} BeforeFragmentAppend(a: string, b: string)
    requires '#' !in a
    ensures BeforeFragment(a + b) == a + BeforeFragment(b)
  {
    if |a| == 0 {
      assert a + b == b;
    } else {
      assert (a + b)[0] == a[0] && (a + b)[1..] == a[1..] + b;
      assert BeforeFragment(a + b) == [a[0]] + BeforeFragment(a[1..] + b);
      assert '#' !in a[1..];
      BeforeFragmentAppend(a[1..], b);
      assert [a[0]] + (a[1..] + BeforeFragment(b)) == a + BeforeFragment(b);
    }
  }

  /** The query starts right after the first '?' and stops at the first '#'. */
  lemma {:induction false} QueryPartAfter(a: string, b: string)
    requires '?' !in a && '#' !in a
    ensures QueryPart(a + ['?'] + b) == Some(BeforeFragment(b))
  {
    var s := a + ['?'] + b;
    if |a| == 0 {
      assert s[0] == '?' && s[1..] == b;
    } else {
      assert s[0] == a[0] && s[1..] == a[1..] + ['?'] + b;
      assert '?' !in a[1..] && '#' !in a[1..];
      QueryPartAfter(a[1..], b);
    }
  }

  /**
   * A query of three parameters, the first two free of '&' and '#', reads
   * back as written, except that the third stops at its first '#'.
   */
  lemma {:induction false} ThreeParams(base: string, a: string, b: string, c: string)
    requires '?' !in base && '#' !in base
    requires '&' !in a && '#' !in a && '&' !in b && '#' !in b
    ensures Params(base + ['?'] + (a + ['&'] + (b + ['&'] + c))) == [a, b] + Fields(BeforeFragment(c), '&')
  {
    var q := a + ['&'] + (b + ['&'] + c);
    var bc := BeforeFragment(c);
    QueryPartAfter(base, q);
    FragmentOfThree(a, b, c);
    assert Params(base + ['?'] + q) == Fields(a + ['&'] + (b + ['&'] + bc), '&');
    FieldsCons(a, '&', b + ['&'] + bc);
    FieldsCons(b, '&', bc);
    assert [a] + ([b] + Fields(bc, '&')) == [a, b] + Fields(bc, '&');
  }

  /** Cutting the fragment of three '&'-joined pieces only touches the last one. */
  lemma FragmentOfThree(a: string, b: string, c: string)
    requires '#' !in a && '#' !in b
    ensures BeforeFragment(a + ['&'] + (b + ['&'] + c)) == a + ['&'] + (b + ['&'] + BeforeFragment(c))
  {
    var x := a + ['&'] + b + ['&'];
    assert '#' !in x;
    assert a + ['&'] + (b + ['&'] + c) == x + c;
    BeforeFragmentAppend(x, c);
    assert x + BeforeFragment(c) == a + ['&'] + (b + ['&'] + BeforeFragment(c));
  }

  /** A URL's fragment is untouched by text free of '#' written ahead of it. */
  lemma FragmentAppend(a: string, b: string)
    requires '#' !in a
    ensures Fragment(a + b) == Fragment(b)
  {
    BeforeFragmentAppend(a, b);
    if '#' in b {
      var k := |a| + |BeforeFragment(b)|;
      assert (a + b)[k + 1..] == b[|BeforeFragment(b)| + 1..];
    }
  }
}

=== FILE: query_escape.dfy ===
/**
 * Form-style query escaping as done by Go's url.QueryEscape: the unreserved
 * characters of section 2.3 of RFC 3986 are kept, a space becomes '+', and
 * every other byte of the UTF-8 form is written as '%' followed by two
 * upper-case hexadecimal digits (section 2.1 of RFC 3986). Unescape is the
 * matching url.QueryUnescape.
 */
module QueryEscape {
  import opened Results
  import opened Ascii
  import Utf8

  /** The octets of the UTF-8 form being escaped. */
  type Byte = Utf8.Byte

  /**
   * The shape of escaped text: only unreserved characters, '+' and '%', and
   * every '%' followed by two upper-case hexadecimal digits.
   */
  predicate WellEscaped(t: string)
  {
    && (forall i :: 0 <= i < |t| ==> IsUnreserved(t[i]) || t[i] == '+' || t[i] == '%')
    && (forall i :: 0 <= i < |t| && t[i] == '%' ==> i + 2 < |t| && IsUpperHex(t[i + 1]) && IsUpperHex(t[i + 2]))
  }

  /** Well-formed escaped text stays well formed under concatenation. */
  lemma WellEscapedConcat(a: string, b: string)
    requires WellEscaped(a) && WellEscaped(b)
    ensures WellEscaped(a + b)
  {
  }

  /** The escaped form of one byte. */
  function EscapeByte(b: Byte): (r: string)
    ensures WellEscaped(r)
    ensures IsUnreserved(b as char) ==> r == [b as char]
    ensures b == 32 ==> r == "+"
    ensures !IsUnreserved(b as char) && b != 32 ==> |r| == 3 && r[0] == '%'
  {
    if IsUnreserved(b as char) then [b as char]
    else if b == 32 then "+"
    else ['%', HexDigit(b / 16), HexDigit(b % 16)]
  }

  /** The escaped form of a byte string, byte by byte. */
  function EscapeBytes(bs: seq<Byte>): (r: string)
    ensures WellEscaped(r)
    ensures |r| >= |bs|
  {
    if |bs| == 0 then ""
    else
      var head := EscapeByte(bs[0]);
      var tail := EscapeBytes(bs[1..]);
      WellEscapedConcat(head, tail);
      head + tail
  }

  /** Byte strings are escaped piece by piece. */
  lemma {:induction false} EscapeBytesAppend(a: seq<Byte>, b: seq<Byte>)
    ensures EscapeBytes(a + b) == EscapeBytes(a) + EscapeBytes(b)
  {
    if |a| == 0 {
      assert a + b == b;
    } else {
      assert (a + b)[0] == a[0] && (a + b)[1..] == a[1..] + b;
      EscapeBytesAppend(a[1..], b);
    }
  }

  /** url.QueryEscape: the escaped form of the UTF-8 bytes of `s`. */
  function Escape(s: string): (r: string)
    ensures WellEscaped(r)
    ensures forall i :: 0 <= i < |r| ==> r[i] != '&' && r[i] != '=' && r[i] != '?' && r[i] != '#' && r[i] != ' '
  {
    EscapeBytes(Utf8.Encode(s))
  }

  /** Strings are escaped piece by piece. */
  lemma EscapeAppend(s: string, t: string)
    ensures Escape(s + t) == Escape(s) + Escape(t)
  {
    Utf8.EncodeAppend(s, t);
    EscapeBytesAppend(Utf8.Encode(s), Utf8.Encode(t));
  }

  /** Escaping leaves a string of unreserved characters unchanged. */
  lemma {:induction false} EscapeUnreserved(s: string)
    requires AllUnreserved(s)
    ensures Escape(s) == s
  {
    if |s| > 0 {
      var e := Utf8.EncodeChar(s[0]);
      assert e == [s[0] as int];
      EscapeBytesAppend(e, Utf8.Encode(s[1..]));
      assert EscapeBytes(e) == [s[0]];
      EscapeUnreserved(s[1..]);
      assert [s[0]] + s[1..] == s;
    }
  }

  /** Prepends `bs` to a successful decoding. */
  function Prepend(bs: seq<Byte>, o: Option<seq<Byte>>): Option<seq<Byte>>
  {
    match o
    case None => None
    case Some(rest) => Some(bs + rest)
  }

  /**
   * The bytes denoted by escaped text: "%XY" (either case) is the byte XY, '+'
   * is a space, any other character stands for its own UTF-8 bytes; None when
   * a '%' is not followed by two hexadecimal digits.
   */
  function UnescapeBytes(t: string): Option<seq<Byte>>
    decreases |t|
  {
    if |t| == 0 then Some([])
    else if t[0] == '%' then
      if |t| < 3 || !IsHex(t[1]) || !IsHex(t[2]) then None
      else Prepend([HexValue(t[1]) * 16 + HexValue(t[2])], UnescapeBytes(t[3..]))
    else if t[0] == '+' then Prepend([32], UnescapeBytes(t[1..]))
    else Prepend(Utf8.EncodeChar(t[0]), UnescapeBytes(t[1..]))
  }

  /** url.QueryUnescape, followed by reading the bytes as UTF-8. */
  function Unescape(t: string): Option<string>
  {
    match UnescapeBytes(t)
    case None => None
    case Some(bs) => Utf8.Decode(bs)
  }

  /** Unescaping the escape of one byte, whatever follows it, yields that byte first. */
  lemma UnescapeEscapeByte(b: Byte, rest: string)
    ensures UnescapeBytes(EscapeByte(b) + rest) == Prepend([b], UnescapeBytes(rest))
  {
  }

  /** Byte-level round trip: unescaping the escaped bytes gives them back. */
  lemma {:induction false} UnescapeEscapeBytes(bs: seq<Byte>)
    ensures UnescapeBytes(EscapeBytes(bs)) == Some(bs)
  {
    if |bs| > 0 {
      UnescapeEscapeByte(bs[0], EscapeBytes(bs[1..]));
      UnescapeEscapeBytes(bs[1..]);
      assert [bs[0]] + bs[1..] == bs;
    }
  }

  /** Round trip: QueryUnescape(QueryEscape(s)) == s for every string. */
  lemma UnescapeEscape(s: string)
    ensures Unescape(Escape(s)) == Some(s)
  {
    UnescapeEscapeBytes(Utf8.Encode(s));
    Utf8.DecodeEncode(s);
  }

  /** Escaping is injective: distinct locations yield distinct query values. */
  lemma EscapeInjective(s: string, t: string)
    requires Escape(s) == Escape(t)
    ensures s == t
  {
    UnescapeEscape(s);
    UnescapeEscape(t);
  }
}

=== FILE: results.dfy ===
/** Failure-carrying wrappers shared by the rest of the model. */
module Results {

  /** Presence or absence of a value, as in Go's `v, ok := ...` idiom. */
  datatype Option<+T> = None | Some(value: T)

  /** Outcome of a step that either yields a value or fails with a Go error's text. */
  datatype Result<+T> = Ok(value: T) | Err(msg: string)

  /** True when `p` is a prefix of `s`. */
  predicate HasPrefix(s: string, p: string)
  {
    |p| <= |s| && s[..|p|] == p
  }
}

=== FILE: units.dfy ===
/** Normalisation of the optional free-text `unit` argument. */
module Units {
  import opened Results
  import opened Ascii

  /** The two canonical unit systems the temperature service understands. */
  datatype Unit = Metric | Imperial
  {
    /** The query token sent for this unit. */
    function Token(): (t: string)
      ensures |t| > 0 && AllUnreserved(t)
    {
      match this
      case Metric => "metric"
      case Imperial => "imperial"
    }
  }

  /** Lower-case spellings accepted for each unit. */
  const MetricAliases: set<string> := {"celsius", "c", "metric"}
  const ImperialAliases: set<string> := {"fahrenheit", "f", "imperial"}

  /**
   * Maps the optional `unit` string (None when absent or not a string) to a
   * unit: empty or absent gives Metric; otherwise the lower-cased value is
   * looked up in the alias table, and anything unknown falls back to Metric.
   */
  function Normalize(raw: Option<string>): (u: Unit)
    ensures u == Imperial <==> raw.Some? && Lower(raw.value) in ImperialAliases
    ensures raw.Some? && Lower(raw.value) in MetricAliases ==> u == Metric
  {
    match raw
    case None => Metric
    case Some(s) =>
      if s == "" then Metric
      else
        var l := Lower(s);
        if l in MetricAliases then Metric
        else if l in ImperialAliases then Imperial
        else Metric
  }

  /** Absent, non-string, empty or unrecognised units all fall back to Metric. */
  lemma FallbackIsMetric(raw: Option<string>)
    requires raw.None? || Lower(raw.value) !in MetricAliases + ImperialAliases
    ensures Normalize(raw) == Metric
  {
  }

  /** The normalisation depends only on the case-folded value. */
  lemma NormalizeIgnoresCase(s: string, t: string)
    requires SameIgnoringCase(s, t)
    ensures Normalize(Some(s)) == Normalize(Some(t))
  {
    SameIgnoringCaseIff(s, t);
  }

  /** Normalising an already normalised token returns it unchanged. */
  lemma NormalizeIdempotent(u: Unit)
    ensures Normalize(Some(u.Token())) == u
  {
    assert Lower(u.Token()) == u.Token();
  }

  /** Sample spellings in mixed case. */
  lemma NormalizeExamples()
    ensures Normalize(Some("F")) == Imperial
    ensures Normalize(Some("Imperial")) == Imperial
    ensures Normalize(Some("CELSIUS")) == Metric
    ensures Normalize(Some("kelvin")) == Metric
    ensures Normalize(Some("")) == Metric
    ensures Normalize(None) == Metric
  {
    assert Lower("F") == "f";
    assert Lower("Imperial") == "imperial";
  }
}

=== FILE: utf8.dfy ===
/**
 * UTF-8 encoding of Unicode scalar values. Go strings are byte strings; every
 * string the handler sees arrives through JSON decoding and is therefore valid
 * UTF-8, so the bytes of a Go string are `Encode(s)` for a Dafny `string` s.
 */
module Utf8 {
  import opened Results

  /** One octet of a Go string. */
  type Byte = x: int | 0 <= x < 256

  /** The integer values that are Unicode scalar values (no surrogates). */
  predicate IsScalar(n: int)
  {
    0 <= n < 0xD800 || 0xE000 <= n < 0x11_0000
  }

  /** A UTF-8 continuation byte, 10xxxxxx. */
  predicate IsContinuation(b: Byte)
  {
    0x80 <= b < 0xC0
  }

  /** The one-to-four byte UTF-8 form of one scalar value. */
  function EncodeChar(c: char): (r: seq<Byte>)
    ensures 1 <= |r| <= 4
    ensures |r| == 1 <==> (c as int) < 0x80
    ensures |r| == 1 ==> r[0] == c as int
    ensures forall i :: 1 <= i < |r| ==> IsContinuation(r[i])
  {
    var n := c as int;
    if n < 0x80 then [n]
    else if n < 0x800 then [0xC0 + n / 64, 0x80 + n % 64]
    else if n < 0x1_0000 then [0xE0 + n / 4096, 0x80 + (n / 64) % 64, 0x80 + n % 64]
    else [0xF0 + n / 262144, 0x80 + (n / 4096) % 64, 0x80 + (n / 64) % 64, 0x80 + n % 64]
  }

  /**
   * The UTF-8 bytes of a whole string: one to four bytes per character, and
   * exactly one per character for ASCII text.
   */
  function Encode(s: string): (r: seq<Byte>)
    ensures |s| <= |r| <= 4 * |s|
    ensures (forall i :: 0 <= i < |s| ==> s[i] as int < 0x80) ==> |r| == |s|
  {
    if |s| == 0 then [] else EncodeChar(s[0]) + Encode(s[1..])
  }

  /**
   * Decodes the first scalar value of `b`, returning it with the number of
   * bytes it occupies; None for a truncated, overlong or surrogate sequence.
   */
  function DecodeChar(b: seq<Byte>): (r: Option<(char, nat)>)
    ensures r.Some? ==> 1 <= r.value.1 <= |b| && r.value.1 <= 4
  {
    if |b| == 0 then None
    else if b[0] < 0x80 then Some((b[0] as char, 1))
    else if 0xC0 <= b[0] < 0xE0 then
      if |b| < 2 || !IsContinuation(b[1]) then None
      else
        var n := (b[0] as int - 0xC0) * 64 + (b[1] as int - 0x80);
        if 0x80 <= n then Some((n as char, 2)) else None
    else if 0xE0 <= b[0] < 0xF0 then
      if |b| < 3 || !IsContinuation(b[1]) || !IsContinuation(b[2]) then None
      else
        var n := (b[0] as int - 0xE0) * 4096 + (b[1] as int - 0x80) * 64 + (b[2] as int - 0x80);
        if 0x800 <= n && IsScalar(n) then Some((n as char, 3)) else None
    else if 0xF0 <= b[0] < 0xF8 then
      if |b| < 4 || !IsContinuation(b[1]) || !IsContinuation(b[2]) || !IsContinuation(b[3]) then None
      else
        var n := (b[0] as int - 0xF0) * 262144 + (b[1] as int - 0x80) * 4096 + (b[2] as int - 0x80) * 64 + (b[3] as int - 0x80);
        if 0x1_0000 <= n && IsScalar(n) then Some((n as char, 4)) else None
    else None
  }

  /** Decodes a whole byte string; None if any part of it is not valid UTF-8. */
  function Decode(b: seq<Byte>): Option<string>
    decreases |b|
  {
    if |b| == 0 then Some("")
    else match DecodeChar(b)
      case None => None
      case Some((c, k)) =>
        match Decode(b[k..])
        case None => None
        case Some(rest) => Some([c] + rest)
  }

  /** Decoding the encoding of `c` at the head of any byte string gives `c` back. */
  lemma DecodeEncodeChar(c: char, rest: seq<Byte>)
    ensures DecodeChar(EncodeChar(c) + rest) == Some((c, |EncodeChar(c)|))
  {
    var n := c as int;
    var e := EncodeChar(c);
    var b := e + rest;
    if n < 0x80 {
    } else if n < 0x800 {
      assert b[0] == 0xC0 + n / 64 && b[1] == 0x80 + n % 64;
      assert (n / 64) * 64 + n % 64 == n;
    } else if n < 0x1_0000 {
      assert b[0] == 0xE0 + n / 4096 && b[1] == 0x80 + (n / 64) % 64 && b[2] == 0x80 + n % 64;
      DivMod3(n);
    } else {
      assert b[0] == 0xF0 + n / 262144 && b[1] == 0x80 + (n / 4096) % 64;
      assert b[2] == 0x80 + (n / 64) % 64 && b[3] == 0x80 + n % 64;
      DivMod4(n);
    }
  }

  /** A natural number is n / 4096 followed by its two lowest 6-bit groups. */
  lemma DivMod3(n: int)
    requires 0 <= n
    ensures (n / 4096) * 4096 + ((n / 64) % 64) * 64 + n % 64 == n
  {
  }

  /** A natural number is n / 262144 followed by its three lowest 6-bit groups. */
  lemma DivMod4(n: int)
    requires 0 <= n
    ensures (n / 262144) * 262144 + ((n / 4096) % 64) * 4096 + ((n / 64) % 64) * 64 + n % 64 == n
  {
    var q := n / 64;
    assert q * 64 + n % 64 == n;
    DivMod3(q);
    assert q / 4096 == n / 262144;
    assert q / 64 == n / 4096;
  }

  /** The bytes of a concatenation are the concatenated bytes. */
  lemma {:induction false} EncodeAppend(s: string, t: string)
    ensures Encode(s + t) == Encode(s) + Encode(t)
  {
    if |s| > 0 {
      assert (s + t)[0] == s[0] && (s + t)[1..] == s[1..] + t;
      EncodeAppend(s[1..], t);
    } else {
      assert s + t == t;
    }
  }

  /** Round trip: decoding the UTF-8 encoding of a string gives the string back. */
  lemma {:induction false} DecodeEncode(s: string)
    ensures Decode(Encode(s)) == Some(s)
  {
    if |s| == 0 {
    } else {
      var e := EncodeChar(s[0]);
      var b := Encode(s);
      assert b == e + Encode(s[1..]);
      DecodeEncodeChar(s[0], Encode(s[1..]));
      assert b[|e|..] == Encode(s[1..]);
      DecodeEncode(s[1..]);
      assert [s[0]] + s[1..] == s;
    }
  }

  /** Encoding is injective: distinct strings have distinct byte forms. */
  lemma EncodeInjective(s: string, t: string)
    requires Encode(s) == Encode(t)
    ensures s == t
  {
    DecodeEncode(s);
    DecodeEncode(t);
  }
}
